=== FILE: README.md ===
# Super Mario per-frame simulation core in Dafny

This project models the per-frame simulation of a browser Super Mario
platformer, with proofs. The game exists in two variants.

- **Flat-floor variant** (`index_01.js`): actors fall until their feet reach
  screen y = 480, and the camera never moves.
- **Tiled variant** (`index_05.js`): actors stand on the solid tiles of a
  level grid. A follow camera scrolls the level once Mario passes the canvas
  centre.

In both variants each animation frame runs one `SceneManager.update(delta)`.
That steps every actor once, in insertion order. For Mario, a step is
`applyGravity`, then the steering, jump, integration and left-edge clamp of
`Mario.update`. Then comes `SceneManager.draw`. In the tiled variant its
only effect on game state is the camera rule at the start of `drawLevel`. In
the flat-floor variant `drawLevel` only fills the canvas, so `draw` changes
no state.

Modules, one per concept of the program:

- `Geometry`: `Vector2d` as the value type `Vec`, and `Box` with
  `isIntersects`.
- `Coords`: the tile cell `Cell` and the three coordinate conversions. Tiles
  are 32 px, the canvas is 15 rows (480 px) tall, screen y grows downward and
  rows count upward from the bottom.
- `Tiles`: the level grid, a sequence of columns of tile codes, and the solid
  codes `0 1 2 b`.
- `Collision`: `Actor.checkLevelCollision`, together with an independent
  reference definition (`FirstHitIndex`) of the tile it selects.
- `Actors`: the shared `Actor` state and both `applyGravity` variants. The
  type `Ground` names which variant is in force.
- `Player`: `Mario` and its `update`. The pressed controls, the frame time
  `delta` and the scene's viewport offset are parameters.
- `Scenes`, `TiledScene`, `FlatScene`: `SceneManager` as a value, and the
  main-loop frame of each variant.

Numbers are Dafny reals. JavaScript's `Math.ceil` is modelled exactly
(`Coords.Ceil`).

Facts about the code that the model makes explicit:

- The second row of the collision neighbourhood is the row below the feet.
  `direction = (0, -1)` lowers the row number, and rows count upward
  (`index_05.js:239`, `index_05.js:251-253`). Cells of that row never
  intersect the actor's box (`Collision.LowerRowNeverIntersects`). Every
  reported collision is therefore in the feet row. Its depth is the depth of
  the feet inside that row, in (0, 32], whichever tile is hit first.
- The corner returned by `calculateScreenCoords` and `calculatePixelCoords`
  maps to the cell one column left and one row up
  (`Coords.ScreenCornerMapsToUpperLeftNeighbour`). Only interior points,
  such as the centre, round-trip.
- The tiled `applyGravity` reads the global `level1_1` grid. The bootstrap
  passes the same grid to `setLevel` (`index_05.js:676`), so the model uses
  the scene's level.

## Model

| member | source | states |
|---|---|---|
| Geometry.Plus | index_05.js:88-90 | the sum is inverted by `minus` on either addend |
| Geometry.Minus | index_05.js:97-99 | the difference is the zero vector exactly when the operands are equal |
| Geometry.Add | index_01.js:79-82 | the in-place add leaves the receiver equal to `plus`, and a following `sub` restores it |
| Geometry.Sub | index_01.js:88-91 | the in-place subtract leaves the receiver equal to `minus` |
| Geometry.LengthSqr | index_05.js:105-107 | the squared length is the self dot product and is never negative |
| Geometry.Multiply | index_05.js:109-111 | scaling by a scales the squared length by a², and scaling by 1 is the identity |
| Geometry.DotProduct | index_05.js:113-115 | the dot product with the zero vector is 0, a vector's dot product with itself is never negative, and the unit basis vectors give 1, 1 and 0 |
| Geometry.DotProductAdditive | index_05.js:113-115 | the dot product is additive in its first argument over `plus` |
| Geometry.DotProductHomogeneous | index_05.js:113-115 | scaling the first argument by k scales the dot product by k |
| Geometry.DotProductSymmetric | index_05.js:113-115 | the dot product is symmetric |
| Geometry.MultiplyDistributes | index_05.js:88-90 | scaling distributes over `plus` |
| Geometry.IsIntersects | index_05.js:142-145 | the centre-distance test holds exactly when the open extents overlap on both axes |
| Geometry.IntersectsSymmetric | index_01.js:138-141 | the intersection test is symmetric in its two boxes |
| Geometry.TouchingBoxesDoNotIntersect | index_05.js:142-145 | boxes that only touch along an edge do not intersect (strict comparison) |
| Coords.Ceil | index_05.js:282-283 | `Math.ceil` is the least integer not below its argument |
| Coords.WorldPosition | index_05.js:280-285 | the resulting cell's pixel square contains the point: open on the left and top, closed on the right and bottom |
| Coords.PixelCoords | index_05.js:294-299 | the centre of the returned tile square maps back to the same tile |
| Coords.ScreenCoords | index_05.js:287-292 | the screen corner is the pixel corner shifted left by the offset, and its centre maps back to the tile under that offset |
| Coords.WorldPositionIff | index_05.js:280-299 | a point maps to a cell if and only if it lies in that cell's pixel square |
| Coords.ScreenCornerMapsToUpperLeftNeighbour | index_05.js:280-292 | the returned screen corner maps to the cell one column left and one row up |
| Coords.PixelCornerMapsToUpperLeftNeighbour | index_05.js:280-299 | the same holds for the level-pixel corner |
| Coords.WorldPositionOffsetCancels | index_05.js:237-238 | pre-shifting the position by the offset cancels the offset, so the feet cell does not depend on scrolling |
| Tiles.HasTile | index_05.js:255-256 | a cell is present exactly when its column is in the grid and its row is within that column: a negative index, a column past the grid or a row at or past its column's end is missing; a present cell lies in a non-empty column |
| Tiles.IsSolid | index_05.js:255-257 | a cell is solid exactly when it is present and its code is one of `0 1 2 b` of the lookup list; a blank is never solid |
| Collision.ActorBox | index_05.js:241-245 | the box is 32×32; read as a centre, its extent ends at the feet point on the right and 16 px above it at the bottom |
| Collision.TileBox | index_05.js:259 | the box is 32×32 at the tile's corner pixel with no half-tile shift: that point lies in the cell up and to the left, and the point 16 px further in lies in the tile |
| Collision.TileBoxSquareIsTheCell | index_05.js:259 | a point lies in the tile's cell exactly when it lies strictly beyond the box's corner and at most 32 px beyond it on both axes, so the box covers the tile's own cell |
| Collision.ActorBoxMeetsFeetTile | index_05.js:241-259 | the actor's box always intersects the box of the tile its feet are in |
| Collision.SolidCells | index_05.js:254-257 | keeps exactly the solid candidates: every kept cell is a solid candidate, and every solid candidate is kept |
| Collision.TileBoxes | index_05.js:258-260 | one box per cell, position by position |
| Collision.Colliding | index_05.js:262 | keeps exactly the boxes that intersect the actor's box |
| Collision.Neighbourhood | index_05.js:239-253 | six candidates in source order: the feet row left, centre, right, then the same three one row lower |
| Collision.FirstHitIndex | index_05.js:254-265 | reference choice: absent if and only if no candidate is a solid intersecting cell; otherwise the least such index |
| Collision.PipelineStep | index_05.js:254-262 | one cell through the filter–map–filter pipeline: a hit cell contributes its box in front of the rest, any other cell contributes nothing |
| Collision.PipelineSelectsFirstHit | index_05.js:247-262 | the filter–map–filter pipeline is empty exactly when there is no hit, and otherwise starts with the box of the first hit |
| Collision.LowerRowNeverIntersects | index_05.js:241-253 | no cell of the row below the feet can intersect the actor's 32×32 box |
| Collision.FirstHitIsInFeetRow | index_05.js:247-265 | the first hit, when there is one, is in the feet row |
| Collision.CheckLevelCollision | index_05.js:236-269 | the result is 0 if and only if nothing is hit; otherwise it is the depth of the feet below the first hit tile's top, equal to the depth in the feet row, in (0, 32] |
| Collision.TileUnderFeetIsNotHit | index_05.js:241-253 | feet exactly on a tile's top edge put the feet cell one row above that tile, and that tile is not hit whatever the rest of the level holds |
| Collision.RestingOnTileTopIsNotACollision | index_05.js:241-265 | feet exactly on a tile's top edge do not hit that tile, and with nothing solid in the feet row (the row above the tile) the result is 0 |
| Collision.NothingSolidNothingHit | index_05.js:254-268 | a level without solid codes never yields a collision |
| Collision.SolidFeetTileSupports | index_05.js:247-265 | a solid feet tile always supports the actor and fixes the depth |
| Collision.FloorTileAtColumnFive | index_05.js:236-269 | feet at (176, 460) over a floor tile at column 5, row 0 report depth 12 |
| Collision.FeetAtColumnFive | index_05.js:280-285 | the point (176, 460) lies in cell (5, 0), whose top pixel row is 448 |
| Actors.NewActor | index_05.js:216-221 | a new actor is at rest at its start point, in the air and not falling |
| Actors.ApplyGravityTiles | index_05.js:223-234 | unsupported: only the vertical speed grows, by 20. Supported: the feet move up onto the tile top, by at most 32 px; vertical speed is 0; both flags clear |
| Actors.ApplyGravityFloor | index_01.js:203-213 | above the floor only the vertical speed grows, by 20; at or below it the actor is put on y = 480 and stopped vertically; never below the floor afterwards |
| Actors.ApplyGravity | index_05.js:223-234 | for either ground: unsupported means gravity only; supported means grounded, not lowered, with zero vertical speed |
| Actors.GroundingClearsFeetRow | index_05.js:228-233 | after grounding no tile of the old feet row intersects the actor's box |
| Actors.GroundedHeightDependsOnlyOnRow | index_05.js:228 | two actors grounded from the same feet row land on the same height |
| Player.GridStep | index_05.js:335-371 | grid speeds lie within ±300, one step from a grid speed inside the limit stays on the grid, and a non-zero grid speed is at least one step from 0 |
| Player.NewMario | index_05.js:302-328 | a new Mario faces right, is at rest, neither running nor stopping, with its speed on the grid and the jump invariant holding |
| Player.PressLeft | index_05.js:333-341 | speeds stay within ±300; a grid speed moves one step left, clamped at −300 |
| Player.PressRight | index_05.js:343-351 | speeds stay within ±300; a grid speed moves one step right, clamped at 300 |
| Player.Release | index_05.js:363-372 | speeds stay within ±300; a grid speed loses one step of magnitude without changing sign, down to exactly 0 |
| Player.SteerSpeedX | index_05.js:333-372 | the combined horizontal effect keeps grid speeds on the grid and within the limit. One held key steps toward its limit; no key decays toward 0 |
| Player.Jump | index_05.js:353-361 | the impulse of −600 is applied if and only if UP is held, the actor is not falling and the speed is above −2000; afterwards the actor is falling if and only if it was, or UP is held and the speed after the impulse is not below −2000; the jump invariant is preserved |
| Player.Integrate | index_05.js:374-378 | the position moves by speed·delta/1000 and then is clamped to the viewport's left edge; speed and flags are unchanged |
| Player.Facing | index_05.js:333-351 | RIGHT wins over LEFT; with neither held the facing is kept |
| Player.Classify | index_05.js:380-387 | stopping holds exactly when moving against the facing faster than 75, and implies running; a held horizontal key means running; with no horizontal key, running holds exactly when the speed is non-zero |
| Player.Steer | index_05.js:333-387 | the composed step after gravity: horizontal speed as `SteerSpeedX`, the impulse and latch laws of `Jump`, semi-implicit position update, never left of the viewport, the facing, and the running and stopping laws of `Classify` |
| Player.Update | index_05.js:330-388 | a full update keeps grid speeds on the grid and the jump invariant, never leaves Mario left of the viewport, and while falling unsupported it adds exactly gravity |
| Player.Run | index_05.js:595-600 | after at least one update Mario is not left of the viewport the last update was given |
| Player.SpeedStaysOnGrid | index_05.js:333-372 | over any run a grid speed stays on the grid and within ±300 |
| Player.ReleasedSpeedStops | index_05.js:363-372 | with no horizontal key the speed's magnitude drops 15 per frame without changing sign, and is exactly 0 after 20 frames |
| Player.NoImpulseUntilLanding | index_05.js:353-361 | once latched, while unsupported, only gravity changes the vertical speed, and the latch stays set |
| Player.JumpFromGroundLatches | index_05.js:353-361 | UP on the ground gives vertical speed −600, in the air and latched |
| Player.OneImpulsePerJump | index_05.js:353-361 | after a jump from the ground the vertical speed of each airborne frame is −600 plus 20 per later frame |
| Player.JumpInvariantHolds | index_05.js:353-361 | over any run, an actor that is not falling is not moving upward |
| Scenes.NewScene | index_05.js:149-154 | a new scene has no actors and a viewport offset of 0 |
| TiledScene.StartScene | index_05.js:593-763 | the game's start-up sequence (new scene, level set, one Mario added and made the player) yields a scene with exactly that Mario as player, that level and the camera at 0 |
| TiledScene.StartedSceneStaysPlayable | index_05.js:760-763 | from the started scene with Mario at a non-negative x, every run keeps the camera at or right of 0, Mario in view and every horizontal speed on the grid |
| Scenes.AddActor | index_05.js:156-159 | the new actor goes last, earlier actors keep their places, and nothing else changes |
| Scenes.SetPlayerActor | index_05.js:161-163 | the designated player is the given index, naming the given actor, and nothing else changes |
| Scenes.SetLevel | index_05.js:165-167 | only the level is replaced, so a player in view stays in view at the same x |
| Scenes.UpdateInOrder | index_05.js:169-171 | every actor is stepped exactly once, in list position |
| Scenes.UpdateInOrderAppend | index_05.js:156-171 | stepping after an append is stepping the old list, then the new actor |
| TiledScene.Update | index_05.js:169-171 | each actor gets its own Mario update on the scene's level and viewport; nothing else changes; no actor ends left of the viewport |
| TiledScene.ScrollViewport | index_05.js:182-185 | the camera moves if and only if the player is right of the canvas centre and the rest of the level fills the canvas; then the player is centred; it never moves left; a player in view stays in view |
| TiledScene.VisibleColumns | index_05.js:187-189 | the visited columns are consecutive, at most 32, all inside the level, include the screen's left-edge column when it is in the level, and are exactly the level's columns from five left of that column (or 0) up to 32 further |
| TiledScene.Frame | index_05.js:595-600 | one frame keeps the player, level and actor count; the camera does not move back; the player ends in view |
| TiledScene.Run | index_05.js:595-607 | consecutive frames keep the player and the actor count |
| TiledScene.CameraOnlyScrollsForward | index_05.js:182-185 | over any run the camera never scrolls back, and the player stays in view |
| TiledScene.FrameKeepsSpeedsOnGrid | index_05.js:169-171 | one frame keeps every actor's horizontal speed on the grid |
| TiledScene.SpeedsStayOnGrid | index_05.js:595-600 | over any run every actor's horizontal speed stays on the grid |
| TiledScene.UpdateAfterAddActor | index_05.js:156-171 | an added actor is updated after all earlier ones |
| FlatScene.Update | index_01.js:165-167 | each actor gets its flat-floor Mario update under the scene's viewport; nothing else changes |
| FlatScene.Frame | index_01.js:364-369 | the flat variant's draw moves no camera: only the actors change, and no actor is left of the offset |
| FlatScene.Run | index_01.js:364-371 | consecutive frames change only the actors and keep their number |
| FlatScene.ViewportStaysAtStart | index_01.js:299-301 | over any run the viewport offset keeps its value and no actor ends left of it |

## Left out

- Rendering is not modelled: sprites and animation, the status bar, the
  tile drawing inside `drawLevel`, actor `draw`, the post-processing passes,
  WebGL, `Vector3d` and the debug overlay. They produce pixels, not game
  state. `TiledScene.VisibleColumns` keeps only the window of columns the
  tile loop visits.
- Loading of sprite sheets and levels, and the bootstrap that creates Mario
  at (100, 100) and registers him, are asynchronous I/O. The model starts
  from any scene value.
- Keyboard listeners and `CONTROLS_PRESSED` become the `Controls` parameter.
  DOWN is read by nothing in the core.
- The frame timing of `mainLoop` (`requestAnimationFrame`, `t - PREVIOUS_T`)
  becomes the `delta` field of each frame input.
- `Vector2d.length` is left out: it needs a square root, and nothing in the
  core calls it.
- IEEE double rounding is not modelled; all arithmetic is exact over the
  reals.
- The abstract `Actor.update` and `Actor.draw`, which throw, are left out.
  Every actor of the scene is a `Mario`, the only concrete actor.
- Mutable identity is not modelled: the actor's back-reference to its scene
  is replaced by passing the viewport offset. The player is an index into
  the actor list, not an object reference. `TiledScene.ScrollViewport`
  requires a designated player, since the source dereferences it.
- The canvas width is a field of the scene, fixed when it is created.
- The error path for a missing level is dropped. With no level set, the
  source throws in `drawLevel` at `this.level.length` and in the tiled
  `applyGravity` at `RESOURCES.level1_1.tiles`. The model uses the empty
  grid instead. This is harmless for the game as started: the bootstrap
  calls `setLevel` (`index_05.js:676`) before it requests the first frame
  (`index_05.js:770`).
- Player.Steer: applies the release deceleration before the UP block, whereas the
  source applies it after. The two blocks touch disjoint fields, so the
  result is the same.
- Geometry.LengthSqr: does not state that only the zero vector has squared
  length 0. That needs nonlinear reasoning over the reals.

=== FILE: actors.dfy ===
/**
 * The kinematic state every actor shares (`Actor`) and the two variants of
 * `applyGravity`: the tiled variant grounds the actor on solid tiles found by
 * the collision resolver, the flat variant on a floor at screen y = 480.
 */
module Actors {
  import opened Geometry
  import opened Coords
  import opened Tiles
  import opened Collision

  const GRAVITY_ACCELERATION: real := 20.0

  /** Screen y of the flat floor of the early variant (the canvas bottom). */
  const FLOOR_Y: real := 480.0

  /** Position is the feet point in level pixels; y grows downward. */
  datatype Actor = Actor(position: Vec, speed: Vec, isInAir: bool, isFalling: bool)

  /** What the actor stands on: the tile grid, or the flat floor. */
  datatype Ground = TileGround(level: Level) | FlatFloor

  /** The constructor: at rest, in the air, not yet falling. */
  function NewActor(x: real, y: real): (a: Actor)
    ensures a.position == Vec(x, y) && a.speed == Zero
    ensures a.isInAir && !a.isFalling
  {
    Actor(Vec(x, y), Vec(0.0, 0.0), true, false)
  }

  /** The tiled variant: a collision resolver result of 0 means unsupported. */
  function ApplyGravityTiles(level: Level, a: Actor, viewportOffset: real): (r: Actor)
    ensures !Supported(level, a.position) ==>
      r == a.(speed := Vec(a.speed.x, a.speed.y + GRAVITY_ACCELERATION))
    ensures Supported(level, a.position) ==>
      && r.position == Vec(a.position.x, PixelCoords(FeetCell(a.position)).y)
      && a.position.y - 32.0 <= r.position.y < a.position.y
      && r.speed == Vec(a.speed.x, 0.0)
      && !r.isInAir && !r.isFalling
  {
    var collision := CheckLevelCollision(level, a.position, viewportOffset);
    if collision == 0.0 then
      a.(speed := Add(a.speed, Vec(0.0, GRAVITY_ACCELERATION)))
    else
      a.(position := a.position.(y := a.position.y - collision),
         isFalling := false,
         isInAir := false,
         speed := a.speed.(y := 0.0))
  }

  /** The flat variant: at or below the floor the actor is put back on it. */
  function ApplyGravityFloor(a: Actor): (r: Actor)
    ensures r.position.y <= FLOOR_Y
    ensures a.position.y < FLOOR_Y ==>
      r == a.(speed := Vec(a.speed.x, a.speed.y + GRAVITY_ACCELERATION))
    ensures a.position.y >= FLOOR_Y ==>
      && r.position == Vec(a.position.x, FLOOR_Y)
      && r.speed == Vec(a.speed.x, 0.0)
      && !r.isInAir && !r.isFalling
  {
    if a.position.y < FLOOR_Y then
      a.(speed := Add(a.speed, Vec(0.0, GRAVITY_ACCELERATION)))
    else
      a.(position := a.position.(y := FLOOR_Y),
         isFalling := false,
         isInAir := false,
         speed := a.speed.(y := 0.0))
  }

  /** The actor's feet are supported by the ground. */
  predicate Grounds(ground: Ground, pos: Vec)
  {
    match ground
    case TileGround(level) => Supported(level, pos)
    case FlatFloor => pos.y >= FLOOR_Y
  }

  /**
   * `applyGravity` of whichever variant: unsupported, only the vertical
   * speed changes, by the gravity step; supported, the actor is grounded
   * with zero vertical speed.
   */
  function ApplyGravity(ground: Ground, a: Actor, viewportOffset: real): (r: Actor)
    ensures !Grounds(ground, a.position) ==>
      r == a.(speed := Vec(a.speed.x, a.speed.y + GRAVITY_ACCELERATION))
    ensures Grounds(ground, a.position) ==>
      && r.position.x == a.position.x
      && r.position.y <= a.position.y
      && r.speed == Vec(a.speed.x, 0.0)
      && !r.isInAir && !r.isFalling
  {
    match ground
    case TileGround(level) => ApplyGravityTiles(level, a, viewportOffset)
    case FlatFloor => ApplyGravityFloor(a)
  }

  /**
   * Grounding on tiles removes the penetration: afterwards no tile of the
   * old feet row intersects the actor's box, the one it was put onto included.
   */
  lemma GroundingClearsFeetRow(level: Level, a: Actor, viewportOffset: real, c: int)
    requires Supported(level, a.position)
    ensures var r := ApplyGravityTiles(level, a, viewportOffset);
      !IsIntersects(ActorBox(r.position), TileBox(Cell(c, FeetCell(a.position).row)))
  {
  }

  /** The landing height depends only on the feet row: two actors grounded from the same row land at the same height. */
  lemma GroundedHeightDependsOnlyOnRow(level: Level, a: Actor, b: Actor, viewportOffset: real)
    requires Supported(level, a.position) && Supported(level, b.position)
    requires FeetCell(a.position).row == FeetCell(b.position).row
    ensures ApplyGravityTiles(level, a, viewportOffset).position.y
         == ApplyGravityTiles(level, b, viewportOffset).position.y
  {
  }
}

=== FILE: collision.dfy ===
/**
 * The tile collision resolver of the tiled variant (`Actor.checkLevelCollision`).
 * It looks at a fixed six-cell neighbourhood of the actor's feet, keeps the
 * solid cells, turns them into 32x32 boxes and reports how far the actor's
 * feet sit below the top of the first box its own box intersects.
 */
module Collision {
  import opened Optional
  import opened Geometry
  import opened Coords
  import opened Tiles

  /**
   * The candidate cells around the feet cell `w`, in the order the source
   * lists them: the feet row left, centre, right, then the same three one
   * row lower (row numbers grow upward, so `row - 1` is the row below).
   */
  function Neighbourhood(w: Cell): (r: seq<Cell>)
    ensures |r| == 6
    ensures forall i :: 0 <= i < 3 ==> r[i] == Cell(w.col - 1 + i, w.row)
    ensures forall i :: 3 <= i < 6 ==> r[i] == Cell(w.col - 4 + i, w.row - 1)
  {
    [Cell(w.col - 1, w.row), w, Cell(w.col + 1, w.row),
     Cell(w.col - 1, w.row - 1), Cell(w.col, w.row - 1), Cell(w.col + 1, w.row - 1)]
  }

  /** The cell of the feet point, independent of scrolling. */
  function FeetCell(pos: Vec): Cell
  {
    WorldPosition(pos, 0.0)
  }

  /**
   * The actor's bounding box: 32x32 at the feet point moved 16 px left and
   * 32 px up. Read as a centre by `IsIntersects`, its extent ends at the
   * feet point on the right and 16 px above it at the bottom.
   */
  function ActorBox(pos: Vec): (r: Box)
    ensures r.width == 32.0 && r.height == 32.0
    ensures r.x + r.width / 2.0 == pos.x && r.y + r.height / 2.0 == pos.y - 16.0
  {
    var p := Plus(pos, Vec(-16.0, -32.0));
    Box(p.x, p.y, 32.0, 32.0)
  }

  /**
   * A tile's box: 32x32 at the tile's top-left level pixel. The point is
   * taken as is, with no half-tile shift, so it lies on the closed corner
   * of the neighbouring cell up and to the left; the point half a tile
   * further in lies inside the tile itself.
   */
  function TileBox(cell: Cell): (r: Box)
    ensures r.width == 32.0 && r.height == 32.0
    ensures WorldPosition(Vec(r.x, r.y), 0.0) == Cell(cell.col - 1, cell.row + 1)
    ensures WorldPosition(Vec(r.x + 16.0, r.y + 16.0), 0.0) == cell
  {
    var p := PixelCoords(cell);
    Box(p.x, p.y, 32.0, 32.0)
  }

  /** The cell is solid and its box intersects the actor's box. */
  predicate Hit(level: Level, pos: Vec, cell: Cell)
  {
    IsSolid(level, cell) && IsIntersects(ActorBox(pos), TileBox(cell))
  }

  /**
   * Reference semantics of the resolver's choice: the index of the first
   * cell, in list order, that is a hit.
   */
  function FirstHitIndex(level: Level, pos: Vec, cells: seq<Cell>): (r: Option<nat>)
    ensures r.None? <==> forall i :: 0 <= i < |cells| ==> !Hit(level, pos, cells[i])
    ensures r.Some? ==> r.value < |cells| && Hit(level, pos, cells[r.value])
    ensures r.Some? ==> forall j :: 0 <= j < r.value ==> !Hit(level, pos, cells[j])
    decreases |cells|
  {
    if |cells| == 0 then None
    else if Hit(level, pos, cells[0]) then Some(0)
    else match FirstHitIndex(level, pos, cells[1..])
      case None => None
      case Some(i) => Some(i + 1)
  }

  /** `.filter` on the tile codes: the solid cells, in order. */
  function SolidCells(level: Level, cells: seq<Cell>): (r: seq<Cell>)
    ensures |r| <= |cells|
    ensures forall i :: 0 <= i < |r| ==> IsSolid(level, r[i]) && r[i] in cells
    ensures forall i :: 0 <= i < |cells| && IsSolid(level, cells[i]) ==> cells[i] in r
    decreases |cells|
  {
    if |cells| == 0 then []
    else if IsSolid(level, cells[0]) then [cells[0]] + SolidCells(level, cells[1..])
    else SolidCells(level, cells[1..])
  }

  /** `.map` to boxes. */
  function TileBoxes(cells: seq<Cell>): (r: seq<Box>)
    ensures |r| == |cells|
    ensures forall i :: 0 <= i < |cells| ==> r[i] == TileBox(cells[i])
    decreases |cells|
  {
    if |cells| == 0 then [] else [TileBox(cells[0])] + TileBoxes(cells[1..])
  }

  /** `.filter(boundingBox.isIntersects)`: the boxes that intersect `box`, in order. */
  function Colliding(box: Box, boxes: seq<Box>): (r: seq<Box>)
    ensures |r| <= |boxes|
    ensures forall i :: 0 <= i < |r| ==> IsIntersects(box, r[i]) && r[i] in boxes
    ensures forall i :: 0 <= i < |boxes| && IsIntersects(box, boxes[i]) ==> boxes[i] in r
    decreases |boxes|
  {
    if |boxes| == 0 then []
    else if IsIntersects(box, boxes[0]) then [boxes[0]] + Colliding(box, boxes[1..])
    else Colliding(box, boxes[1..])
  }

  /** One step of the filter-map-filter pipeline: the head cell contributes its box exactly when it is a hit. */
  lemma PipelineStep(level: Level, pos: Vec, cells: seq<Cell>)
    requires |cells| > 0
    ensures Colliding(ActorBox(pos), TileBoxes(SolidCells(level, cells)))
         == (if Hit(level, pos, cells[0]) then [TileBox(cells[0])] else [])
            + Colliding(ActorBox(pos), TileBoxes(SolidCells(level, cells[1..])))
  {
    var box := ActorBox(pos);
    var rest := TileBoxes(SolidCells(level, cells[1..]));
    if IsSolid(level, cells[0]) {
      var head := TileBox(cells[0]);
      assert SolidCells(level, cells) == [cells[0]] + SolidCells(level, cells[1..]);
      assert TileBoxes(SolidCells(level, cells)) == [head] + rest;
      assert ([head] + rest)[1..] == rest;
    } else {
      assert SolidCells(level, cells) == SolidCells(level, cells[1..]);
    }
  }

  /** The filter-map-filter pipeline of the source selects the first hit of the list. */
  lemma {:induction false} PipelineSelectsFirstHit(level: Level, pos: Vec, cells: seq<Cell>)
    ensures var hits := Colliding(ActorBox(pos), TileBoxes(SolidCells(level, cells)));
      match FirstHitIndex(level, pos, cells)
      case None => hits == []
      case Some(i) => |hits| > 0 && hits[0] == TileBox(cells[i])
    decreases |cells|
  {
    if |cells| > 0 {
      PipelineSelectsFirstHit(level, pos, cells[1..]);
      PipelineStep(level, pos, cells);
    }
  }

  /** No cell of the lower row of the neighbourhood can ever intersect the actor's box. */
  lemma LowerRowNeverIntersects(pos: Vec, cell: Cell)
    requires cell.row == FeetCell(pos).row - 1
    ensures !IsIntersects(ActorBox(pos), TileBox(cell))
  {
  }

  /**
   * `checkLevelCollision`. Returns 0 when no candidate cell is a hit;
   * otherwise the distance from the top pixel of the first hit tile down to
   * the feet. Because only feet-row tiles can be hit, that distance is the
   * depth of the feet inside their own row, in (0, 32], whichever tile is
   * hit first.
   */
  function CheckLevelCollision(level: Level, pos: Vec, viewportOffset: real): (r: real)
    ensures var cells := Neighbourhood(FeetCell(pos));
      match FirstHitIndex(level, pos, cells)
      case None => r == 0.0
      case Some(i) => r == pos.y - PixelCoords(cells[i]).y
    ensures r == 0.0 <==> !Supported(level, pos)
    ensures r != 0.0 ==> r == pos.y - PixelCoords(FeetCell(pos)).y && 0.0 < r <= 32.0
  {
    var box := ActorBox(pos);
    var world := WorldPosition(Plus(pos, Vec(-viewportOffset, 0.0)), viewportOffset);
    WorldPositionOffsetCancels(pos, viewportOffset);
    var cells := Neighbourhood(world);
    var collided := Colliding(box, TileBoxes(SolidCells(level, cells)));
    PipelineSelectsFirstHit(level, pos, cells);
    FirstHitIsInFeetRow(level, pos);
    if |collided| > 0 then box.y + box.height - collided[0].y else 0.0
  }

  /** Some cell of the neighbourhood is a hit. */
  predicate Supported(level: Level, pos: Vec)
  {
    exists i :: 0 <= i < 6 && Hit(level, pos, Neighbourhood(FeetCell(pos))[i])
  }

  /** The first hit, when there is one, is a feet-row cell. */
  lemma FirstHitIsInFeetRow(level: Level, pos: Vec)
    ensures var cells := Neighbourhood(FeetCell(pos));
      match FirstHitIndex(level, pos, cells)
      case None => !Supported(level, pos)
      case Some(i) => Supported(level, pos) && cells[i].row == FeetCell(pos).row
  {
    var cells := Neighbourhood(FeetCell(pos));
    forall i | 3 <= i < 6
      ensures !Hit(level, pos, cells[i])
    {
      LowerRowNeverIntersects(pos, cells[i]);
    }
  }

  /** No cell of the row is solid. */
  ghost predicate RowIsClear(level: Level, row: int)
  {
    forall c :: !IsSolid(level, Cell(c, row))
  }

  /** Feet exactly on the top edge of a tile never hit that tile: it is in the row below the feet. */
  lemma TileUnderFeetIsNotHit(level: Level, pos: Vec, support: Cell)
    requires pos.y == PixelCoords(support).y
    ensures FeetCell(pos).row == support.row + 1
    ensures !Hit(level, pos, support)
  {
    LowerRowNeverIntersects(pos, support);
  }

  /**
   * Feet exactly on the top edge of a tile: that tile is never reported,
   * and with nothing solid in the feet row (the row above the tile) the
   * resolver returns 0.
   */
  lemma RestingOnTileTopIsNotACollision(level: Level, pos: Vec, support: Cell)
    requires pos.y == PixelCoords(support).y
    requires RowIsClear(level, support.row + 1)
    ensures !Hit(level, pos, support)
    ensures CheckLevelCollision(level, pos, 0.0) == 0.0
  {
    TileUnderFeetIsNotHit(level, pos, support);
    var feet := FeetCell(pos);
    var cells := Neighbourhood(feet);
    forall i | 0 <= i < 6
      ensures !Hit(level, pos, cells[i])
    {
      if i < 3 {
        assert !IsSolid(level, Cell(cells[i].col, support.row + 1));
      } else {
        LowerRowNeverIntersects(pos, cells[i]);
      }
    }
  }

  /** No cell of the level holds a solid code. */
  ghost predicate NoSolidTiles(level: Level)
  {
    forall c: Cell :: !IsSolid(level, c)
  }

  /** Over a level without solid tiles the resolver always reports 0. */
  lemma NothingSolidNothingHit(level: Level, pos: Vec, viewportOffset: real)
    requires NoSolidTiles(level)
    ensures CheckLevelCollision(level, pos, viewportOffset) == 0.0
  {
  }

  /**
   * The point of a tile's box is the tile's own corner pixel: the pixel
   * square spanned from it is exactly the set of points that map to the tile.
   */
  lemma TileBoxSquareIsTheCell(cell: Cell, p: Vec)
    ensures WorldPosition(p, 0.0) == cell <==>
      TileBox(cell).x < p.x <= TileBox(cell).x + 32.0 &&
      TileBox(cell).y < p.y <= TileBox(cell).y + 32.0
  {
    var c := PixelCoords(cell);
    assert TileBox(cell) == Box(c.x, c.y, 32.0, 32.0);
    WorldPositionIff(p, 0.0, cell);
  }

  /** The actor's box always meets the box of the tile its feet are in. */
  lemma ActorBoxMeetsFeetTile(pos: Vec)
    ensures IsIntersects(ActorBox(pos), TileBox(FeetCell(pos)))
  {
    var p := PixelCoords(FeetCell(pos));
    assert TileBox(FeetCell(pos)) == Box(p.x, p.y, 32.0, 32.0);
  }

  /**
   * When the tile holding the feet is solid the actor is always supported,
   * and the resolver reports the depth of the feet below that tile's top.
   */
  lemma SolidFeetTileSupports(level: Level, pos: Vec, viewportOffset: real)
    requires IsSolid(level, FeetCell(pos))
    ensures Supported(level, pos)
    ensures CheckLevelCollision(level, pos, viewportOffset) == pos.y - PixelCoords(FeetCell(pos)).y
  {
    var feet := FeetCell(pos);
    ActorBoxMeetsFeetTile(pos);
    assert Neighbourhood(feet)[1] == feet;
  }

  /**
   * A concrete case: the only solid tile is a floor tile at column 5,
   * row 0, whose pixel box is (160, 448). Feet at (176, 460) are 12 px
   * deep in it.
   */
  lemma FloorTileAtColumnFive()
    ensures CheckLevelCollision([" ", " ", " ", " ", " ", "0"], Vec(176.0, 460.0), 0.0) == 12.0
  {
    var level: Level := [" ", " ", " ", " ", " ", "0"];
    var pos := Vec(176.0, 460.0);
    FeetAtColumnFive();
    assert IsSolid(level, Cell(5, 0)) by {
      assert level[5][0] == '0';
    }
    SolidFeetTileSupports(level, pos, 0.0);
  }

  lemma FeetAtColumnFive()
    ensures FeetCell(Vec(176.0, 460.0)) == Cell(5, 0)
    ensures PixelCoords(Cell(5, 0)).y == 448.0
  {
    assert Ceil(176.0 / 32.0) == 6;
    assert Ceil(460.0 / 32.0) == 15;
  }
}

=== FILE: coords.dfy ===
/**
 * The three coordinate systems of the game and the conversions between them
 * (`calculateWorldPosition`, `calculateScreenCoords`, `calculatePixelCoords`).
 * Tiles are 32 px square, the canvas is 480 px (15 rows) tall, screen y grows
 * downward and tile rows count upward from the bottom row 0.
 */
module Coords {
  import opened Geometry

  /** A tile address: column from the level start, row from the bottom. */
  datatype Cell = Cell(col: int, row: int)

  /** `Math.ceil`: the least integer not below `x`. */
  function Ceil(x: real): (r: int)
    ensures r as real - 1.0 < x <= r as real
  {
    -((-x).Floor)
  }

  /**
   * `calculateWorldPosition`: the tile under a screen point. Each tile owns a
   * pixel square that is open on its left and top edges and closed on its
   * right and bottom edges.
   */
  function WorldPosition(screen: Vec, viewportOffset: real): (r: Cell)
    ensures (32 * r.col) as real < screen.x + viewportOffset <= (32 * (r.col + 1)) as real
    ensures (32 * (14 - r.row)) as real < screen.y <= (32 * (15 - r.row)) as real
  {
    Cell(Ceil((screen.x + viewportOffset) / 32.0) - 1, 15 - Ceil(screen.y / 32.0))
  }

  /**
   * `calculatePixelCoords`: the top-left pixel of a tile in the unscrolled
   * level. The centre of that pixel square maps back to the same tile.
   */
  function PixelCoords(cell: Cell): (r: Vec)
    ensures WorldPosition(Vec(r.x + 16.0, r.y + 16.0), 0.0) == cell
  {
    Vec((cell.col * 32) as real, (480 - (cell.row + 1) * 32) as real)
  }

  /**
   * `calculateScreenCoords`: the top-left pixel of a tile on the scrolled
   * screen: the level pixel shifted left by the viewport offset. Its centre
   * maps back to the tile under the same offset.
   */
  function ScreenCoords(cell: Cell, viewportOffset: real): (r: Vec)
    ensures r == Minus(PixelCoords(cell), Vec(viewportOffset, 0.0))
    ensures WorldPosition(Vec(r.x + 16.0, r.y + 16.0), viewportOffset) == cell
  {
    Vec((cell.col * 32) as real - viewportOffset, (480 - (cell.row + 1) * 32) as real)
  }

  /** Exactly the points of a tile's pixel square (open left/top, closed right/bottom) map to that tile. */
  lemma WorldPositionIff(p: Vec, viewportOffset: real, cell: Cell)
    ensures WorldPosition(p, viewportOffset) == cell <==>
      PixelCoords(cell).x < p.x + viewportOffset <= PixelCoords(cell).x + 32.0 &&
      PixelCoords(cell).y < p.y <= PixelCoords(cell).y + 32.0
  {
  }

  /**
   * The corner given by `ScreenCoords` does not map back to its own tile:
   * it lies on the closed edge of the tile up and to the left.
   */
  lemma ScreenCornerMapsToUpperLeftNeighbour(cell: Cell, viewportOffset: real)
    ensures WorldPosition(ScreenCoords(cell, viewportOffset), viewportOffset) == Cell(cell.col - 1, cell.row + 1)
  {
  }

  /** The same holds for the level-pixel corner under a zero offset. */
  lemma PixelCornerMapsToUpperLeftNeighbour(cell: Cell)
    ensures WorldPosition(PixelCoords(cell), 0.0) == Cell(cell.col - 1, cell.row + 1)
  {
  }

  /** Shifting the screen point left by the offset cancels the offset (the lookup in `checkLevelCollision`). */
  lemma WorldPositionOffsetCancels(p: Vec, viewportOffset: real)
    ensures WorldPosition(Plus(p, Vec(-viewportOffset, 0.0)), viewportOffset) == WorldPosition(p, 0.0)
  {
  }
}

=== FILE: flat_scene.dfy ===
/**
 * The scene of the flat-floor variant: actors ground on the floor at
 * y = 480 and drawing never moves the camera, so the viewport offset keeps
 * its initial value 0.
 */
module FlatScene {
  import opened Actors
  import opened Player
  import opened Scenes

  /** `SceneManager.update`: each actor updated once, in order, under the scene's viewport. */
  function Update(s: Scene, c: Controls, delta: real): (r: Scene)
    ensures r == s.(actors := r.actors)
    ensures |r.actors| == |s.actors|
    ensures forall i :: 0 <= i < |s.actors| ==>
      r.actors[i] == Player.Update(FlatFloor, s.actors[i], Input(c, delta, s.viewportOffset))
    ensures forall i :: 0 <= i < |r.actors| ==> r.actors[i].body.position.x >= s.viewportOffset
  {
    s.(actors := UpdateInOrder(s.actors, m => Player.Update(FlatFloor, m, Input(c, delta, s.viewportOffset))))
  }

  /** One iteration of the main loop; `draw` of this variant changes no state. */
  function Frame(s: Scene, input: FrameInput): (r: Scene)
    ensures r == s.(actors := r.actors) && |r.actors| == |s.actors|
    ensures forall i :: 0 <= i < |r.actors| ==> r.actors[i].body.position.x >= s.viewportOffset
  {
    Update(s, input.controls, input.delta)
  }

  /** Consecutive frames: only the actors change. */
  function Run(s: Scene, inputs: seq<FrameInput>): (r: Scene)
    ensures r == s.(actors := r.actors) && |r.actors| == |s.actors|
    decreases |inputs|
  {
    if |inputs| == 0 then s else Run(Frame(s, inputs[0]), inputs[1..])
  }

  /**
   * The viewport offset never changes, and after at least one frame no actor
   * is left of it.
   */
  lemma {:induction false} ViewportStaysAtStart(s: Scene, inputs: seq<FrameInput>)
    ensures Run(s, inputs).viewportOffset == s.viewportOffset
    ensures |Run(s, inputs).actors| == |s.actors|
    ensures |inputs| > 0 ==>
      forall i :: 0 <= i < |s.actors| ==> Run(s, inputs).actors[i].body.position.x >= s.viewportOffset
    decreases |inputs|
  {
    if |inputs| > 0 {
      ViewportStaysAtStart(Frame(s, inputs[0]), inputs[1..]);
    }
  }
}

=== FILE: geometry.dfy ===
/**
 * Value-level geometry shared by both game variants: the 2D vector
 * (`Vector2d`) and the axis-aligned box (`Box`) with its intersection test.
 * Numbers are real: IEEE rounding of the browser is not modelled.
 */
module Geometry {

  /** A 2D vector: a position, displacement or velocity. */
  datatype Vec = Vec(x: real, y: real)

  const Zero: Vec := Vec(0.0, 0.0)

  function Abs(x: real): real
  {
    if x < 0.0 then -x else x
  }

  /** `plus`: a new vector; subtracting the addend again gives back the receiver. */
  function Plus(a: Vec, b: Vec): (r: Vec)
    ensures Minus(r, b) == a
    ensures Minus(r, a) == b
  {
    Vec(a.x + b.x, a.y + b.y)
  }

  /** `minus`: a new vector, the zero vector exactly when the operands are equal. */
  function Minus(a: Vec, b: Vec): (r: Vec)
    ensures r == Zero <==> a == b
  {
    Vec(a.x - b.x, a.y - b.y)
  }

  /**
   * `add` mutates its receiver. With value semantics the model returns the
   * receiver's new value, which is exactly what `plus` returns.
   */
  function Add(self: Vec, v: Vec): (self': Vec)
    ensures self' == Plus(self, v)
    ensures Sub(self', v) == self
  {
    Vec(self.x + v.x, self.y + v.y)
  }

  /** `sub` mutates its receiver to exactly what `minus` returns. */
  function Sub(self: Vec, v: Vec): (self': Vec)
    ensures self' == Minus(self, v)
  {
    Vec(self.x - v.x, self.y - v.y)
  }

  /**
   * `dotProduct`: zero against the zero vector, never negative for a vector
   * with itself, and 1 or 0 on the unit basis vectors. With symmetry and
   * linearity (the lemmas below) these values determine it completely.
   */
  function DotProduct(a: Vec, b: Vec): (r: real)
    ensures a == Zero || b == Zero ==> r == 0.0
    ensures a == b ==> r >= 0.0
    ensures a == Vec(1.0, 0.0) && b == Vec(1.0, 0.0) ==> r == 1.0
    ensures a == Vec(0.0, 1.0) && b == Vec(0.0, 1.0) ==> r == 1.0
    ensures a == Vec(1.0, 0.0) && b == Vec(0.0, 1.0) ==> r == 0.0
  {
    SquareNonNegative(a.x);
    SquareNonNegative(a.y);
    a.x * b.x + a.y * b.y
  }

  /** `lengthSqr`: the squared Euclidean length, the dot product of the vector with itself. */
  function LengthSqr(v: Vec): (r: real)
    ensures r == DotProduct(v, v)
    ensures r >= 0.0
  {
    SquareNonNegative(v.x);
    SquareNonNegative(v.y);
    v.x * v.x + v.y * v.y
  }

  lemma SquareNonNegative(x: real)
    ensures x * x >= 0.0
  {
    if x < 0.0 {
      assert x * x == (-x) * (-x);
    }
  }

  /** `multiply`: scaling by `a` scales the squared length by `a * a`. */
  function Multiply(v: Vec, a: real): (r: Vec)
    ensures LengthSqr(r) == a * a * LengthSqr(v)
    ensures a == 1.0 ==> r == v
  {
    Vec(v.x * a, v.y * a)
  }

  lemma DotProductSymmetric(a: Vec, b: Vec)
    ensures DotProduct(a, b) == DotProduct(b, a)
  {
  }

  /** The dot product is additive in its first argument over `plus`. */
  lemma DotProductAdditive(a: Vec, b: Vec, c: Vec)
    ensures DotProduct(Plus(a, b), c) == DotProduct(a, c) + DotProduct(b, c)
  {
    assert Plus(a, b) == Vec(a.x + b.x, a.y + b.y);
    assert (a.x + b.x) * c.x == a.x * c.x + b.x * c.x;
    assert (a.y + b.y) * c.y == a.y * c.y + b.y * c.y;
  }

  /** The dot product is homogeneous in its first argument under `multiply`. */
  lemma DotProductHomogeneous(a: Vec, c: Vec, k: real)
    ensures DotProduct(Multiply(a, k), c) == k * DotProduct(a, c)
  {
    assert Multiply(a, k) == Vec(a.x * k, a.y * k);
    assert (a.x * k) * c.x == k * (a.x * c.x);
    assert (a.y * k) * c.y == k * (a.y * c.y);
  }

  /** Scaling distributes over the non-mutating sum. */
  lemma MultiplyDistributes(a: Vec, b: Vec, k: real)
    ensures Multiply(Plus(a, b), k) == Plus(Multiply(a, k), Multiply(b, k))
  {
    assert Plus(a, b) == Vec(a.x + b.x, a.y + b.y);
    assert Multiply(a, k) == Vec(a.x * k, a.y * k);
    assert Multiply(b, k) == Vec(b.x * k, b.y * k);
    assert (a.x + b.x) * k == a.x * k + b.x * k;
    assert (a.y + b.y) * k == a.y * k + b.y * k;
  }

  /**
   * A box. The constructor of the source calls its point a "left corner",
   * but `IsIntersects` treats (x, y) as the box's centre; the model keeps the
   * point exactly as given.
   */
  datatype Box = Box(x: real, y: real, width: real, height: real)

  /** The open intervals (lo1, hi1) and (lo2, hi2) share an interior point. */
  predicate Overlap(lo1: real, hi1: real, lo2: real, hi2: real)
  {
    lo1 < hi2 && lo2 < hi1
  }

  /**
   * `isIntersects`: the strict centre-distance test. It holds exactly when
   * the open extents of the two boxes, taken around (x, y), overlap on both
   * axes, so boxes that only touch along an edge do not intersect.
   */
  function IsIntersects(a: Box, b: Box): (r: bool)
    ensures r <==>
      Overlap(a.x - a.width / 2.0, a.x + a.width / 2.0, b.x - b.width / 2.0, b.x + b.width / 2.0) &&
      Overlap(a.y - a.height / 2.0, a.y + a.height / 2.0, b.y - b.height / 2.0, b.y + b.height / 2.0)
  {
    Abs(a.x - b.x) * 2.0 < a.width + b.width && Abs(a.y - b.y) * 2.0 < a.height + b.height
  }

  lemma IntersectsSymmetric(a: Box, b: Box)
    ensures IsIntersects(a, b) == IsIntersects(b, a)
  {
  }

  /** Edge contact on either axis is not an intersection. */
  lemma TouchingBoxesDoNotIntersect(a: Box, b: Box)
    requires Abs(a.x - b.x) * 2.0 == a.width + b.width || Abs(a.y - b.y) * 2.0 == a.height + b.height
    ensures !IsIntersects(a, b)
  {
  }
}

=== FILE: optional.dfy ===
/** An optional value: a lookup that can come back empty. */
module Optional {

  datatype Option<+T> = None | Some(value: T)
}

=== FILE: player.dfy ===
/**
 * The player actor (`Mario`) and its per-frame `update`: gravity of the
 * variant's ground, then horizontal steering with clamps, the jump impulse
 * and its latch, semi-implicit position integration, the left-edge clamp,
 * and the derived running/stopping flags. The pressed controls, the frame
 * time and the scene's viewport offset are parameters.
 */
module Player {
  import opened Geometry
  import opened Actors

  const MAX_SPEED: real := 300.0
  const ACCELERATION: real := 15.0
  const MAX_JUMP_SPEED: real := 2000.0
  const JUMP_ACCELERATION: real := 600.0

  /** The pressed state of the four logical controls. */
  datatype Controls = Controls(up: bool, down: bool, left: bool, right: bool)

  datatype Direction = LTR | RTL

  datatype Mario = Mario(body: Actor, direction: Direction, isRunning: bool, isStopping: bool)

  /** One frame's input to `update`: controls, elapsed milliseconds and the scene's viewport offset. */
  datatype Input = Input(controls: Controls, delta: real, viewportOffset: real)

  function Max(a: real, b: real): real
  {
    if a < b then b else a
  }

  function Min(a: real, b: real): real
  {
    if a < b then a else b
  }

  /** A horizontal speed reachable from rest: a whole multiple of the acceleration within the speed limit. */
  predicate OnGrid(sx: real)
  {
    var k := (sx / ACCELERATION).Floor;
    sx == ACCELERATION * k as real && -20 <= k <= 20
  }

  /** Neighbouring grid speeds are one step apart, and the only grid speed within 1 of zero is zero. */
  lemma GridStep(sx: real)
    ensures OnGrid(sx) ==> -MAX_SPEED <= sx <= MAX_SPEED
    ensures OnGrid(sx) && sx < MAX_SPEED ==> OnGrid(sx + ACCELERATION)
    ensures OnGrid(sx) && sx > -MAX_SPEED ==> OnGrid(sx - ACCELERATION)
    ensures OnGrid(sx) && sx > 0.0 ==> sx >= ACCELERATION
    ensures OnGrid(sx) && sx < 0.0 ==> sx <= -ACCELERATION
  {
    if OnGrid(sx) {
      var k := (sx / ACCELERATION).Floor;
      if sx < MAX_SPEED {
        assert (sx + ACCELERATION) / ACCELERATION == (k + 1) as real;
      }
      if sx > -MAX_SPEED {
        assert (sx - ACCELERATION) / ACCELERATION == (k - 1) as real;
      }
    }
  }

  /** Not falling implies not moving upward: the latch is set before any upward speed exists. */
  predicate JumpInvariant(a: Actor)
  {
    !a.isFalling ==> a.speed.y >= 0.0
  }

  /** The constructor: facing right, standing still. */
  function NewMario(x: real, y: real): (m: Mario)
    ensures m.body == NewActor(x, y) && m.direction == LTR
    ensures OnGrid(m.body.speed.x) && JumpInvariant(m.body)
    ensures !m.isRunning && !m.isStopping
  {
    Mario(NewActor(x, y), LTR, false, false)
  }

  /** LEFT held: accelerate leftward unless at the limit, then clamp at the limit. */
  function PressLeft(sx: real): (r: real)
    ensures -MAX_SPEED <= sx <= MAX_SPEED ==> -MAX_SPEED <= r <= MAX_SPEED
    ensures OnGrid(sx) ==> OnGrid(r) && r == Max(sx - ACCELERATION, -MAX_SPEED)
  {
    GridStep(sx);
    var s := if sx > -MAX_SPEED then sx - ACCELERATION else sx;
    if s < -MAX_SPEED then -MAX_SPEED else s
  }

  /** RIGHT held: accelerate rightward unless at the limit, then clamp at the limit. */
  function PressRight(sx: real): (r: real)
    ensures -MAX_SPEED <= sx <= MAX_SPEED ==> -MAX_SPEED <= r <= MAX_SPEED
    ensures OnGrid(sx) ==> OnGrid(r) && r == Min(sx + ACCELERATION, MAX_SPEED)
  {
    GridStep(sx);
    var s := if sx < MAX_SPEED then sx + ACCELERATION else sx;
    if s > MAX_SPEED then MAX_SPEED else s
  }

  /** Neither LEFT nor RIGHT held: snap a speed within 1 of zero to zero, otherwise decelerate one step. */
  function Release(sx: real): (r: real)
    ensures -MAX_SPEED <= sx <= MAX_SPEED ==> -MAX_SPEED <= r <= MAX_SPEED
    ensures OnGrid(sx) ==>
      && OnGrid(r)
      && Abs(r) == Max(Abs(sx) - ACCELERATION, 0.0)
      && (r > 0.0 ==> sx > 0.0) && (r < 0.0 ==> sx < 0.0)
  {
    GridStep(sx);
    var s := if -1.0 < sx < 1.0 then 0.0 else sx;
    if s < 0.0 then s + ACCELERATION else if s > 0.0 then s - ACCELERATION else s
  }

  /**
   * The whole effect of one update on the horizontal speed. Speeds on the
   * 15-step grid stay on it; a held key moves one step toward its limit and
   * stops there; with no horizontal key the magnitude drops by one step
   * without changing sign until it is exactly 0.
   */
  function SteerSpeedX(sx: real, c: Controls): (r: real)
    ensures OnGrid(sx) ==> OnGrid(r)
    ensures -MAX_SPEED <= sx <= MAX_SPEED ==> -MAX_SPEED <= r <= MAX_SPEED
    ensures OnGrid(sx) && c.right && !c.left ==> r == Min(sx + ACCELERATION, MAX_SPEED)
    ensures OnGrid(sx) && c.left && !c.right ==> r == Max(sx - ACCELERATION, -MAX_SPEED)
    ensures OnGrid(sx) && !c.left && !c.right ==>
      && Abs(r) == Max(Abs(sx) - ACCELERATION, 0.0)
      && (r > 0.0 ==> sx > 0.0) && (r < 0.0 ==> sx < 0.0)
  {
    var s1 := if c.left then PressLeft(sx) else sx;
    var s2 := if c.right then PressRight(s1) else s1;
    if !c.left && !c.right then Release(s2) else s2
  }

  /**
   * UP held: the impulse is applied only when not yet falling and the upward
   * speed is below its bound; any speed within the bound sets the latch.
   */
  function Jump(a: Actor, up: bool): (r: Actor)
    ensures r.position == a.position && r.speed.x == a.speed.x
    ensures r.speed.y != a.speed.y <==> up && !a.isFalling && a.speed.y > -MAX_JUMP_SPEED
    ensures r.speed.y != a.speed.y ==> r.speed.y == a.speed.y - JUMP_ACCELERATION && r.isInAir
    ensures r.speed.y == a.speed.y ==> r.isInAir == a.isInAir
    ensures r.isFalling <==> a.isFalling || (up && r.speed.y >= -MAX_JUMP_SPEED)
    ensures JumpInvariant(a) ==> JumpInvariant(r)
  {
    if !up then a
    else
      var a1 := if !a.isFalling && a.speed.y > -MAX_JUMP_SPEED then
          a.(speed := Add(a.speed, Vec(0.0, -JUMP_ACCELERATION)), isInAir := true)
        else a;
      if a1.speed.y >= -MAX_JUMP_SPEED then a1.(isFalling := true) else a1
  }

  /** The distance covered in `delta` milliseconds at speed `v` (pixels per second). */
  function Displacement(v: real, delta: real): real
  {
    v * (delta / 1000.0)
  }

  /** `position.add(speed.multiply(delta / 1000))`, then the clamp at the viewport's left edge. */
  function Integrate(a: Actor, delta: real, viewportOffset: real): (r: Actor)
    ensures r.speed == a.speed && r.isInAir == a.isInAir && r.isFalling == a.isFalling
    ensures r.position.y == a.position.y + Displacement(a.speed.y, delta)
    ensures r.position.x == Max(a.position.x + Displacement(a.speed.x, delta), viewportOffset)
  {
    var moved := Add(a.position, Multiply(a.speed, delta / 1000.0));
    var p := if moved.x - viewportOffset < 0.0 then moved.(x := viewportOffset) else moved;
    a.(position := p)
  }

  /** The facing after the LEFT block and then the RIGHT block: RIGHT wins when both are held. */
  function Facing(dir: Direction, c: Controls): (r: Direction)
    ensures c.right ==> r == LTR
    ensures c.left && !c.right ==> r == RTL
    ensures !c.left && !c.right ==> r == dir
  {
    var afterLeft := if c.left then RTL else dir;
    if c.right then LTR else afterLeft
  }

  /**
   * `_isRunning` and `_isStopping`, derived from the controls and the final
   * speed: stopping means running while moving against the facing faster
   * than a quarter of the speed limit.
   */
  function Classify(b: Actor, dir: Direction, c: Controls): (r: Mario)
    ensures r.body == b && r.direction == dir
    ensures r.isStopping <==> Abs(b.speed.x) > MAX_SPEED / 4.0 && (dir == LTR <==> b.speed.x < 0.0)
    ensures r.isStopping ==> r.isRunning
    ensures c.left || c.right ==> r.isRunning
    ensures !c.left && !c.right ==> (r.isRunning <==> b.speed.x != 0.0)
  {
    var running := (c.right || c.left) || b.speed.x != 0.0;
    var stopping := running &&
      ((dir == LTR && b.speed.x < -MAX_SPEED * 0.25) || (dir == RTL && b.speed.x > MAX_SPEED * 0.25));
    Mario(b, dir, running, stopping)
  }

  /**
   * Everything `Mario.update` does after `applyGravity`. The source releases
   * the horizontal speed after the UP block; the jump neither reads nor
   * writes the horizontal speed, so the model steers it in one step first.
   * Position moves by the speed of this frame after it was updated
   * (semi-implicit Euler) and never ends left of the viewport.
   */
  function Steer(m: Mario, c: Controls, delta: real, viewportOffset: real): (r: Mario)
    ensures r.body.speed.x == SteerSpeedX(m.body.speed.x, c)
    ensures r.body.position.y == m.body.position.y + Displacement(r.body.speed.y, delta)
    ensures r.body.position.x == Max(m.body.position.x + Displacement(r.body.speed.x, delta), viewportOffset)
    ensures r.body.position.x >= viewportOffset
    ensures r.body.speed.y != m.body.speed.y <==> c.up && !m.body.isFalling && m.body.speed.y > -MAX_JUMP_SPEED
    ensures r.body.speed.y != m.body.speed.y ==> r.body.speed.y == m.body.speed.y - JUMP_ACCELERATION && r.body.isInAir
    ensures r.body.speed.y == m.body.speed.y ==> r.body.isInAir == m.body.isInAir
    ensures r.body.isFalling <==> m.body.isFalling || (c.up && r.body.speed.y >= -MAX_JUMP_SPEED)
    ensures JumpInvariant(m.body) ==> JumpInvariant(r.body)
    ensures r.direction == Facing(m.direction, c)
    ensures r.isStopping <==> Abs(r.body.speed.x) > MAX_SPEED / 4.0 && (r.direction == LTR <==> r.body.speed.x < 0.0)
    ensures r.isStopping ==> r.isRunning
    ensures c.left || c.right ==> r.isRunning
    ensures !c.left && !c.right ==> (r.isRunning <==> r.body.speed.x != 0.0)
  {
    var steered := m.body.(speed := Vec(SteerSpeedX(m.body.speed.x, c), m.body.speed.y));
    var jumped := Jump(steered, c.up);
    var moved := Integrate(jumped, delta, viewportOffset);
    Classify(moved, Facing(m.direction, c), c)
  }

  /** `Mario.update`: `applyGravity` of the variant's ground, then the steering above. */
  function Update(ground: Ground, m: Mario, input: Input): (r: Mario)
    ensures OnGrid(m.body.speed.x) ==> OnGrid(r.body.speed.x)
    ensures JumpInvariant(m.body) ==> JumpInvariant(r.body)
    ensures r.body.position.x >= input.viewportOffset
    ensures m.body.isFalling && !Grounds(ground, m.body.position) ==>
      r.body.isFalling && r.body.speed.y == m.body.speed.y + GRAVITY_ACCELERATION
  {
    Steer(m.(body := ApplyGravity(ground, m.body, input.viewportOffset)), input.controls, input.delta, input.viewportOffset)
  }

  /**
   * Consecutive updates, one per input, in order. After at least one update
   * the actor is not left of the viewport the last update was given.
   */
  function Run(ground: Ground, m: Mario, inputs: seq<Input>): (r: Mario)
    ensures |inputs| > 0 ==> r.body.position.x >= inputs[|inputs| - 1].viewportOffset
    decreases |inputs|
  {
    if |inputs| == 0 then m
    else
      var next := Update(ground, m, inputs[0]);
      var rest := inputs[1..];
      assert |rest| > 0 ==> rest[|rest| - 1] == inputs[|inputs| - 1];
      Run(ground, next, rest)
  }

  /** Before every update of the run the actor is unsupported. */
  predicate Airborne(ground: Ground, m: Mario, inputs: seq<Input>)
    decreases |inputs|
  {
    |inputs| == 0 ||
    (!Grounds(ground, m.body.position) && Airborne(ground, Update(ground, m, inputs[0]), inputs[1..]))
  }

  /** Under any inputs a speed that starts on the grid (as at rest) stays on it, within the speed limit. */
  lemma {:induction false} SpeedStaysOnGrid(ground: Ground, m: Mario, inputs: seq<Input>)
    requires OnGrid(m.body.speed.x)
    ensures OnGrid(Run(ground, m, inputs).body.speed.x)
    ensures -MAX_SPEED <= Run(ground, m, inputs).body.speed.x <= MAX_SPEED
    decreases |inputs|
  {
    if |inputs| > 0 {
      SpeedStaysOnGrid(ground, Update(ground, m, inputs[0]), inputs[1..]);
    }
  }

  /**
   * With LEFT and RIGHT released the speed loses one step per frame, never
   * changes sign, and is exactly 0 after MAX_SPEED / ACCELERATION = 20 frames.
   */
  lemma {:induction false} ReleasedSpeedStops(ground: Ground, m: Mario, inputs: seq<Input>)
    requires OnGrid(m.body.speed.x)
    requires forall i :: 0 <= i < |inputs| ==> !inputs[i].controls.left && !inputs[i].controls.right
    ensures var sx := Run(ground, m, inputs).body.speed.x;
      && Abs(sx) == Max(Abs(m.body.speed.x) - ACCELERATION * |inputs| as real, 0.0)
      && (sx > 0.0 ==> m.body.speed.x > 0.0) && (sx < 0.0 ==> m.body.speed.x < 0.0)
    ensures |inputs| >= 20 ==> Run(ground, m, inputs).body.speed.x == 0.0
    decreases |inputs|
  {
    if |inputs| > 0 {
      var m' := Update(ground, m, inputs[0]);
      ReleasedSpeedStops(ground, m', inputs[1..]);
    }
  }

  /** Once latched, the actor gets no impulse before it lands: each frame only gravity acts on its vertical speed. */
  lemma {:induction false} NoImpulseUntilLanding(ground: Ground, m: Mario, inputs: seq<Input>)
    requires m.body.isFalling
    requires Airborne(ground, m, inputs)
    ensures Run(ground, m, inputs).body.isFalling
    ensures Run(ground, m, inputs).body.speed.y == m.body.speed.y + GRAVITY_ACCELERATION * |inputs| as real
    decreases |inputs|
  {
    if |inputs| > 0 {
      NoImpulseUntilLanding(ground, Update(ground, m, inputs[0]), inputs[1..]);
    }
  }

  /** UP from the ground gives exactly one impulse and sets the latch. */
  lemma JumpFromGroundLatches(ground: Ground, m: Mario, input: Input)
    requires Grounds(ground, m.body.position) && input.controls.up
    ensures var r := Update(ground, m, input);
      r.body.speed.y == -JUMP_ACCELERATION && r.body.isInAir && r.body.isFalling
  {
  }

  /**
   * One impulse per jump: after jumping from the ground, the vertical speed
   * of every later airborne frame is the single impulse plus gravity.
   */
  lemma OneImpulsePerJump(ground: Ground, m: Mario, inputs: seq<Input>)
    requires |inputs| > 0
    requires Grounds(ground, m.body.position) && inputs[0].controls.up
    requires Airborne(ground, Update(ground, m, inputs[0]), inputs[1..])
    ensures Run(ground, m, inputs).body.speed.y
         == -JUMP_ACCELERATION + GRAVITY_ACCELERATION * (|inputs| - 1) as real
  {
    JumpFromGroundLatches(ground, m, inputs[0]);
    NoImpulseUntilLanding(ground, Update(ground, m, inputs[0]), inputs[1..]);
  }

  /** The jump invariant holds from construction through any run. */
  lemma {:induction false} JumpInvariantHolds(ground: Ground, m: Mario, inputs: seq<Input>)
    requires JumpInvariant(m.body)
    ensures JumpInvariant(Run(ground, m, inputs).body)
    decreases |inputs|
  {
    if |inputs| > 0 {
      JumpInvariantHolds(ground, Update(ground, m, inputs[0]), inputs[1..]);
    }
  }
}

=== FILE: scenes.dfy ===
/**
 * The scene (`SceneManager`) as a value: the actors in insertion order, the
 * designated player, the level, the viewport offset and the canvas width.
 * An actor's back-reference to its scene is modelled by the scene handing
 * its viewport offset to every actor update.
 */
module Scenes {
  import opened Optional
  import opened Tiles
  import opened Player

  datatype Scene = Scene(
    actors: seq<Mario>,
    player: Option<nat>,
    level: Level,
    viewportOffset: real,
    canvasWidth: nat)

  /** One iteration of the main loop: the pressed controls and the elapsed milliseconds. */
  datatype FrameInput = FrameInput(controls: Controls, delta: real)

  /** The constructor: no actors, no player, no level yet, camera at the level start. */
  function NewScene(canvasWidth: nat): (s: Scene)
    ensures s.actors == [] && s.player.None? && s.level == []
    ensures s.viewportOffset == 0.0 && s.canvasWidth == canvasWidth
  {
    Scene([], None, [], 0.0, canvasWidth)
  }

  /** A player has been designated and is one of the scene's actors. */
  predicate HasPlayer(s: Scene)
  {
    s.player.Some? && s.player.value < |s.actors|
  }

  function PlayerX(s: Scene): real
    requires HasPlayer(s)
  {
    s.actors[s.player.value].body.position.x
  }

  /** The player is not left of the viewport's left edge. */
  predicate PlayerInView(s: Scene)
  {
    HasPlayer(s) && PlayerX(s) >= s.viewportOffset
  }

  /** `addActor`: the new actor goes last; the existing actors keep their places. */
  function AddActor(s: Scene, a: Mario): (r: Scene)
    ensures |r.actors| == |s.actors| + 1
    ensures r.actors[..|s.actors|] == s.actors && r.actors[|s.actors|] == a
    ensures r == s.(actors := r.actors)
    ensures PlayerInView(s) ==> PlayerInView(r) && PlayerX(r) == PlayerX(s)
  {
    s.(actors := s.actors + [a])
  }

  /** `setPlayerActor`: the player must already be one of the actors. */
  function SetPlayerActor(s: Scene, index: nat): (r: Scene)
    requires index < |s.actors|
    ensures HasPlayer(r) && r.actors[r.player.value] == s.actors[index]
    ensures r == s.(player := Some(index))
  {
    s.(player := Some(index))
  }

  /** `setLevel`: only the level changes, so the player's place in view is kept. */
  function SetLevel(s: Scene, level: Level): (r: Scene)
    ensures r == s.(level := level)
    ensures PlayerInView(s) ==> PlayerInView(r) && PlayerX(r) == PlayerX(s)
  {
    s.(level := level)
  }

  /** `actors.forEach(actor => actor.update(delta))`: every actor stepped once, in list order. */
  function UpdateInOrder<T>(xs: seq<T>, step: T -> T): (r: seq<T>)
    ensures |r| == |xs|
    ensures forall i :: 0 <= i < |xs| ==> r[i] == step(xs[i])
    decreases |xs|
  {
    if |xs| == 0 then [] else [step(xs[0])] + UpdateInOrder(xs[1..], step)
  }

  /** Updating after an `addActor` is updating the old actors and then the new one. */
  lemma UpdateInOrderAppend<T>(xs: seq<T>, x: T, step: T -> T)
    ensures UpdateInOrder(xs + [x], step) == UpdateInOrder(xs, step) + [step(x)]
  {
    var l := UpdateInOrder(xs + [x], step);
    var r := UpdateInOrder(xs, step) + [step(x)];
    assert |l| == |r|;
    forall i | 0 <= i < |l|
      ensures l[i] == r[i]
    {
      if i < |xs| {
        assert (xs + [x])[i] == xs[i];
      }
    }
  }
}

=== FILE: tiled_scene.dfy ===
/**
 * The scene of the tiled variant: actors ground on the level's tiles, and
 * drawing the level first moves the follow camera. Drawing itself is left
 * out; only its effect on the viewport and the window of columns it visits
 * are modelled.
 */
module TiledScene {
  import opened Geometry
  import opened Coords
  import opened Actors
  import opened Player
  import opened Tiles
  import opened Scenes

  /** The width of the level in pixels. */
  function LevelWidth(s: Scene): real
  {
    (|s.level| * 32) as real
  }

  /** `SceneManager.update`: each actor updated once, in order, on the scene's level and under its viewport. */
  function Update(s: Scene, c: Controls, delta: real): (r: Scene)
    ensures r == s.(actors := r.actors)
    ensures |r.actors| == |s.actors|
    ensures forall i :: 0 <= i < |s.actors| ==>
      r.actors[i] == Player.Update(TileGround(s.level), s.actors[i], Input(c, delta, s.viewportOffset))
    ensures forall i :: 0 <= i < |r.actors| ==> r.actors[i].body.position.x >= s.viewportOffset
  {
    s.(actors := UpdateInOrder(s.actors, m => Player.Update(TileGround(s.level), m, Input(c, delta, s.viewportOffset))))
  }

  /**
   * The camera rule at the start of `drawLevel`: once the player is right of
   * the canvas centre and the rest of the level still fills the canvas, the
   * camera moves so that the player is at the centre. It never moves left,
   * and a player in view stays in view.
   */
  function ScrollViewport(s: Scene): (r: Scene)
    requires HasPlayer(s)
    ensures r == s.(viewportOffset := r.viewportOffset)
    ensures r.viewportOffset >= s.viewportOffset
    ensures r.viewportOffset != s.viewportOffset <==>
      PlayerX(s) - s.viewportOffset > s.canvasWidth as real / 2.0 &&
      LevelWidth(s) - s.viewportOffset >= s.canvasWidth as real
    ensures r.viewportOffset != s.viewportOffset ==> PlayerX(r) - r.viewportOffset == s.canvasWidth as real / 2.0
    ensures PlayerInView(s) ==> PlayerInView(r)
  {
    if PlayerX(s) - s.viewportOffset > s.canvasWidth as real / 2.0 &&
       LevelWidth(s) - s.viewportOffset >= s.canvasWidth as real
    then s.(viewportOffset := PlayerX(s) - s.canvasWidth as real / 2.0)
    else s
  }

  /**
   * The columns the tile loop of `drawLevel` visits: exactly those from five
   * columns left of the screen's left-edge column (but not before 0), at
   * most 32 of them and all inside the level; they come in order, and the
   * left-edge column is among them whenever it is a column of the level.
   */
  method VisibleColumns(levelLength: nat, viewportOffset: real) returns (cols: seq<int>)
    ensures |cols| <= 32
    ensures forall i :: 0 <= i < |cols| ==> 0 <= cols[i] < levelLength
    ensures forall i :: 0 < i < |cols| ==> cols[i] == cols[i - 1] + 1
    ensures var left := WorldPosition(Vec(0.0, 0.0), viewportOffset).col;
      0 <= left < levelLength ==> left in cols
    ensures var left := WorldPosition(Vec(0.0, 0.0), viewportOffset).col;
      var xStart := if left - 5 > 0 then left - 5 else 0;
      forall c :: c in cols <==> xStart <= c < levelLength && c < xStart + 32
  {
    var left := WorldPosition(Vec(0.0, 0.0), viewportOffset).col;
    var xStart := if left - 5 > 0 then left - 5 else 0;
    var count := if 32 < levelLength - xStart then 32 else levelLength - xStart;
    cols := [];
    var x := xStart;
    while x < xStart + count
      invariant xStart <= x
      invariant x <= xStart + (if count > 0 then count else 0)
      invariant |cols| == x - xStart
      invariant forall i :: 0 <= i < |cols| ==> cols[i] == xStart + i
      decreases xStart + count - x
    {
      cols := cols + [x];
      x := x + 1;
    }
    forall c | xStart <= c < levelLength && c < xStart + 32
      ensures c in cols
    {
      assert cols[c - xStart] == c;
    }
  }

  /** One iteration of the main loop: update, then draw, whose only effect on the state is the camera rule. */
  function Frame(s: Scene, input: FrameInput): (r: Scene)
    requires HasPlayer(s)
    ensures HasPlayer(r) && r.player == s.player && |r.actors| == |s.actors|
    ensures r.level == s.level && r.canvasWidth == s.canvasWidth
    ensures r.viewportOffset >= s.viewportOffset
    ensures PlayerInView(r)
  {
    ScrollViewport(Update(s, input.controls, input.delta))
  }

  /** Consecutive frames. */
  function Run(s: Scene, inputs: seq<FrameInput>): (r: Scene)
    requires HasPlayer(s)
    ensures HasPlayer(r) && r.player == s.player && |r.actors| == |s.actors|
    decreases |inputs|
  {
    if |inputs| == 0 then s else Run(Frame(s, inputs[0]), inputs[1..])
  }

  /**
   * Over any run the camera never scrolls back, and a player in view (as
   * after construction) stays in view after every frame.
   */
  lemma {:induction false} CameraOnlyScrollsForward(s: Scene, inputs: seq<FrameInput>)
    requires HasPlayer(s)
    ensures Run(s, inputs).viewportOffset >= s.viewportOffset
    ensures PlayerInView(s) || |inputs| > 0 ==> PlayerInView(Run(s, inputs))
    decreases |inputs|
  {
    if |inputs| > 0 {
      CameraOnlyScrollsForward(Frame(s, inputs[0]), inputs[1..]);
    }
  }

  /** Every actor's horizontal speed is on the 15-step grid. */
  predicate SpeedsOnGrid(s: Scene)
  {
    forall i :: 0 <= i < |s.actors| ==> OnGrid(s.actors[i].body.speed.x)
  }

  /** A frame keeps every actor's horizontal speed on the grid. */
  lemma FrameKeepsSpeedsOnGrid(s: Scene, input: FrameInput)
    requires HasPlayer(s) && SpeedsOnGrid(s)
    ensures SpeedsOnGrid(Frame(s, input))
  {
    var u := Update(s, input.controls, input.delta);
    forall i | 0 <= i < |u.actors|
      ensures OnGrid(u.actors[i].body.speed.x)
    {
      assert u.actors[i] == Player.Update(TileGround(s.level), s.actors[i], Input(input.controls, input.delta, s.viewportOffset));
    }
    assert Frame(s, input) == ScrollViewport(u);
  }

  /** Under any run every actor's horizontal speed stays on the grid, as it is at construction. */
  lemma {:induction false} SpeedsStayOnGrid(s: Scene, inputs: seq<FrameInput>)
    requires HasPlayer(s) && SpeedsOnGrid(s)
    ensures SpeedsOnGrid(Run(s, inputs))
    decreases |inputs|
  {
    if |inputs| > 0 {
      FrameKeepsSpeedsOnGrid(s, inputs[0]);
      SpeedsStayOnGrid(Frame(s, inputs[0]), inputs[1..]);
    }
  }

  /** An actor added to the scene is updated after all earlier actors, which keep their order. */
  lemma UpdateAfterAddActor(s: Scene, a: Mario, c: Controls, delta: real)
    ensures Update(AddActor(s, a), c, delta).actors
         == Update(s, c, delta).actors + [Player.Update(TileGround(s.level), a, Input(c, delta, s.viewportOffset))]
  {
    UpdateInOrderAppend(s.actors, a, m => Player.Update(TileGround(s.level), m, Input(c, delta, s.viewportOffset)));
  }

  /** The scene as the game starts it: level set, then one Mario added and made the player. */
  function StartScene(canvasWidth: nat, level: Level, x: real, y: real): (s: Scene)
    ensures HasPlayer(s) && s.actors == [NewMario(x, y)] && s.level == level
    ensures s.viewportOffset == 0.0 && s.canvasWidth == canvasWidth
  {
    var withLevel := SetLevel(NewScene(canvasWidth), level);
    var withMario := AddActor(withLevel, NewMario(x, y));
    SetPlayerActor(withMario, 0)
  }

  /**
   * From the started scene, with Mario placed at a non-negative x, every run
   * keeps the camera at or right of the level start, keeps Mario in view and
   * keeps his horizontal speed on the grid.
   */
  lemma StartedSceneStaysPlayable(canvasWidth: nat, level: Level, x: real, y: real, inputs: seq<FrameInput>)
    requires x >= 0.0
    ensures var r := Run(StartScene(canvasWidth, level, x, y), inputs);
      r.viewportOffset >= 0.0 && PlayerInView(r) && SpeedsOnGrid(r)
  {
    var s := StartScene(canvasWidth, level, x, y);
    assert PlayerInView(s);
    assert SpeedsOnGrid(s);
    CameraOnlyScrollsForward(s, inputs);
    SpeedsStayOnGrid(s, inputs);
  }
}

=== FILE: tiles.dfy ===
/**
 * The level grid: a sequence of columns, each a string of tile codes indexed
 * by row (row 0 at the bottom). Blank and decorative codes are not solid.
 */
module Tiles {
  import opened Coords

  type Level = seq<string>

  /** The tile codes the collision resolver treats as solid, in the order of its lookup list. */
  const SOLID_LIST: seq<char> := ['0', '1', '2', 'b']

  /**
   * The code at a cell is present. A negative index, a column past the
   * grid or a row past the end of its column reads as missing, and a
   * present cell always lies in a non-empty column.
   */
  function HasTile(level: Level, cell: Cell): (r: bool)
    ensures cell.col < 0 || cell.row < 0 || cell.col >= |level| ==> !r
    ensures 0 <= cell.col < |level| && cell.row >= |level[cell.col]| ==> !r
    ensures 0 <= cell.col < |level| && 0 <= cell.row < |level[cell.col]| ==> r
    ensures r ==> level[cell.col] != ""
  {
    0 <= cell.col < |level| && 0 <= cell.row < |level[cell.col]|
  }

  /**
   * A present cell whose code is found in the lookup list: exactly the codes
   * 0, 1, 2 and b. Missing cells and blanks are never solid.
   */
  function IsSolid(level: Level, cell: Cell): (r: bool)
    ensures r <==> (HasTile(level, cell) &&
      var code := level[cell.col][cell.row];
      code == '0' || code == '1' || code == '2' || code == 'b')
    ensures r ==> level[cell.col][cell.row] != ' '
  {
    HasTile(level, cell) && level[cell.col][cell.row] in SOLID_LIST
  }
}
